=== FILE: README.md ===
# FitKit iOS bridge — a Dafny model

FitKit's iOS side is a Flutter plugin that exposes HealthKit to a Dart
application: it answers `hasPermissions`, `requestPermissions`,
`revokePermissions`, `read` and `subscribe` calls arriving on the `fit_kit`
method channel. Around the HealthKit calls sits a small amount of logic of
its own, and that is what this project models and proves things about:

- the metric table (`Extensions.swift`): nine metric names (`heart_rate`,
  `step_count`, `height`, `weight`, `distance`, `energy`, `water`, `sleep`,
  `blood_glucose`), each mapped to a HealthKit sample type and a unit, and
  the reverse map from a sample-type identifier to the name;
- the subscribe-argument parser (`SubscribeRequest.swift`);
- the plugin's decisions (`SwiftFitKitPlugin.swift`): method dispatch and
  error tagging, the per-type "already subscribed" flags, the read ordering
  and limit rule, the permission decision, and the fields of each record.

HealthKit, the device and the other argument parsers are inputs: a
`Platform` value (is health data available, is iOS 9 / iOS 12 met, is the
screen lit, how Swift renders raw arguments), a `Vendor` value (the outcome
of authorization, the status lookups, the samples in the store), and a
`Parsers` value for `PermissionsRequest.fromCall` and `ReadRequest.fromCall`.
The persisted subscription flags are a `set<string>` threaded through
`FitKitPlugin.Handle`, and `FitKitPlugin.Run` folds `Handle` over any
sequence of calls.

Files: `wrappers.dfy` (Option, Result), `extensions.dfy` (the metric table),
`calls.dfy` (channel argument values), `subscribe_request.dfy`,
`sorting.dfy` (samples and sorting), `read.dfy` (read rule),
`records.dfy` (record fields), `subscriptions.dfy` (flag logic),
`plugin.dfy` (dispatch, handlers, sessions).

Three behaviours of the code that a caller may not expect:

- a `read` while the screen is dark answers an empty *dictionary*, not an
  empty list (`EmptyMapReply`);
- results are never handed back in descending order: a limited read is
  fetched newest-end-first and then re-sorted ascending by start date;
- a limit of 0 equals `HKObjectQueryNoLimit`, so it returns every sample in
  the window (sorted ascending by start), not at most zero.

## Model

| member | source | states |
|---|---|---|
| Extensions.ParseName | ios/Classes/Extensions.swift:16-41 | recognises exactly the nine names, each as the metric whose name it is |
| Extensions.ParseIdentifier | ios/Classes/Extensions.swift:84-105 | recognises an identifier only as the metric that has it |
| Extensions.ParseNameInverts | ios/Classes/Extensions.swift:16-41 | every metric's name is recognised as that metric |
| Extensions.ParseIdentifierInverts | ios/Classes/Extensions.swift:84-105 | every metric's identifier is recognised as that metric's, so the nine identifiers are distinct |
| Extensions.SampleTypeFromDartType | ios/Classes/Extensions.swift:14-46 | succeeds exactly for the nine names (for `water` only from iOS 9 on); any other name fails with `type "<name>" is not supported`; `sleep` alone gives a category type; the reverse map takes every result back to the name it came from |
| Extensions.UnitFromDartType | ios/Classes/Extensions.swift:50-78 | succeeds exactly for the nine names, failing with the same message otherwise |
| Extensions.ToDartType | ios/Classes/Extensions.swift:82-108 | total: yields `""` exactly when no metric has the identifier, otherwise one of the nine names |
| Extensions.RoundTrip | ios/Classes/Extensions.swift:14-108 | for every accepted name, mapping to a sample type and back gives the name |
| Extensions.ReverseRoundTrip | ios/Classes/Extensions.swift:82-108 | every identifier the reverse map recognises is reproduced by the forward lookup of its name |
| Extensions.SampleTypeInjective | ios/Classes/Extensions.swift:16-38 | distinct accepted names (any of the nine, `water` only from iOS 9 on) give distinct sample types |
| Extensions.SameDomain | ios/Classes/Extensions.swift:14-78 | with iOS 9 available, the two forward lookups accept the same names and fail with the same message |
| Extensions.WaterNeedsIOS9 | ios/Classes/Extensions.swift:29-34 | before iOS 9 `water` has no sample type although its unit (liter) is found |
| Extensions.UnitNotInjective | ios/Classes/Extensions.swift:57-62 | `height` and `distance` both map to the meter |
| Extensions.NoUnitInverse | ios/Classes/Extensions.swift:52-73 | no function from units back to names inverts the unit lookup |
| Calls.StringList | ios/Classes/SubscribeRequest.swift:16 | a list converts to `[String]` exactly when every item is a string, keeping length and items |
| Calls.AsBool | ios/Classes/SubscribeRequest.swift:27 | the forced cast to Bool succeeds on a Bool, giving its value, and on the numbers 0 and 1, giving false and true, and on nothing else |
| Calls.AsStringList | ios/Classes/SubscribeRequest.swift:16 | only lists of strings convert to `[String]`, and the result has the list's length and, item by item, its texts |
| SubscribeRequests.MapAll | ios/Classes/SubscribeRequest.swift:21-26 | a throwing `map`: succeeds exactly when every element does, element i of the result is the closure's value on element i, and a failure carries the error of the first failing element |
| SubscribeRequests.LookupPair | ios/Classes/SubscribeRequest.swift:21-26 | the pair of both lookups of a name, or the not-supported error for that name |
| SubscribeRequests.LookupAll | ios/Classes/SubscribeRequest.swift:21-26 | all-or-nothing and order-preserving: on success element i is the lookup pair of name i; on failure the error names the first unsupported name in list order |
| SubscribeRequests.TypesArgument | ios/Classes/SubscribeRequest.swift:15-19 | the names are found exactly when the arguments are a string-keyed map whose `types` entry is a list of strings, and they are that list's texts in order |
| SubscribeRequests.FromCall | ios/Classes/SubscribeRequest.swift:14-30 | fails with `invalid call arguments` exactly when the arguments are not a string-keyed map with a `types` list of strings; succeeds exactly when every name is supported; keeps `types` verbatim with `sampleTypes` of the same length and order; `ignoreManualData` is the value the forced cast yields |
| SubscribeRequests.EmptyTypesParse | ios/Classes/SubscribeRequest.swift:21-29 | an empty `types` list parses, with no sample types |
| SubscribeRequests.NamesCheckedBeforeFlag | ios/Classes/SubscribeRequest.swift:15-27 | with malformed or unsupported names the flag may be absent and the parse fails rather than trapping |
| SubscribeRequests.NumericFlagAccepted | ios/Classes/SubscribeRequest.swift:27 | a flag sent as the number 0 or 1 passes the forced cast, as `false` or `true` |
| SubscribeRequests.OneBadNameFailsAll | ios/Classes/SubscribeRequest.swift:21-26 | one unsupported name anywhere fails the whole parse with a lookup error |
| Samples.Insert | ios/Classes/SwiftFitKitPlugin.swift:294 | inserting into a sorted sequence keeps it sorted and adds exactly the one sample |
| Samples.Sort | ios/Classes/SwiftFitKitPlugin.swift:282-294 | the result is a permutation of the input, sorted by the requested key |
| Reads.Window | ios/Classes/SwiftFitKitPlugin.swift:281 | keeps exactly the store's samples that start inside the window, with their multiplicities |
| Reads.VendorQuery | ios/Classes/SwiftFitKitPlugin.swift:282-283 | the query answer is sorted, drawn from the matches, complete without a limit, of size min(limit, matches) with one, and precedes everything it left out |
| Reads.ReadSamples | ios/Classes/SwiftFitKitPlugin.swift:281-295 | reports only samples of the window, each at most as often as it occurs there; ascending by end without a limit, ascending by start with one |
| Reads.ReadStaysInWindow | ios/Classes/SwiftFitKitPlugin.swift:281 | every reported sample is in the store and starts inside [dateFrom, dateTo) |
| Reads.ReadWithoutLimitIsComplete | ios/Classes/SwiftFitKitPlugin.swift:282-283 | without a limit, or with limit 0 (`HKObjectQueryNoLimit`), every sample of the window is reported |
| Reads.ReadWithLimitKeepsLatest | ios/Classes/SwiftFitKitPlugin.swift:282-295 | with limit k > 0, min(k, n) of the n window samples are reported, and none left out ends later than one reported |
| Reads.LargeLimitKeepsAll | ios/Classes/SwiftFitKitPlugin.swift:283-295 | a limit at least the window size reports the same samples as an unlimited read, differing only in order |
| Records.UserEntered | ios/Classes/SwiftFitKitPlugin.swift:304 | true exactly when the metadata holds the user-entered key with the value that bridges to `true` |
| Records.ObserverAdmits | ios/Classes/SwiftFitKitPlugin.swift:156-160 | without the filter every sample is admitted; with it, exactly the samples whose `user_entered` field would be false, which includes those with no metadata |
| Records.FilterMatchesUserEntered | ios/Classes/SwiftFitKitPlugin.swift:157-160 | the observer predicate for ignored manual data admits a sample exactly when its `user_entered` field would be false |
| Records.ReadValue | ios/Classes/SwiftFitKitPlugin.swift:316-324 | `value` is the quantity (a Double) for quantity samples, the category value for category samples, and -1 otherwise |
| Records.ToRecord | ios/Classes/SwiftFitKitPlugin.swift:298-307 | a record carries its sample's value, dates and source, the requested unit if any, `user_entered` exactly when the metadata entry is `true` (so never without metadata), and the metric name of its type: empty exactly for a type outside the table, and otherwise a name whose forward lookup gives back the sample's identifier |
| Records.ReadRecords | ios/Classes/SwiftFitKitPlugin.swift:298-308 | one row per sample, in order, with the sample's value, dates, source, `user_entered` flag and metric name, and the requested unit |
| Records.EventRecords | ios/Classes/SwiftFitKitPlugin.swift:225-234 | one event per delivered sample, in order, with the sample's value, dates, source, `user_entered` flag and metric name, and no `unit` entry |
| Records.EventsAreRowsWithoutUnit | ios/Classes/SwiftFitKitPlugin.swift:225-234 | an event equals the read row of the same sample with the unit removed |
| Subscriptions.FlagKey | ios/Classes/SwiftFitKitPlugin.swift:163 | the flag key is `fit_kit_subscribe_` followed by the sample type's identifier |
| Subscriptions.FlagKeyInjective | ios/Classes/SwiftFitKitPlugin.swift:163 | two types share a flag key exactly when they share an identifier |
| Subscriptions.DistinctKeysDistinctTypes | ios/Classes/SwiftFitKitPlugin.swift:162-197 | observers with distinct keys watch distinct sample types |
| Subscriptions.Register | ios/Classes/SwiftFitKitPlugin.swift:162-197 | afterwards the flags are the old ones plus every requested key; observers are registered exactly for the requested keys that were unset, each key once, each for a requested (type, unit) pair with the request's filter |
| Subscriptions.FlaggedRegistersNothing | ios/Classes/SwiftFitKitPlugin.swift:162-197 | a request whose types are all flagged already registers no observer and leaves the flags as they were |
| Subscriptions.DuplicateRegistersOnce | ios/Classes/SwiftFitKitPlugin.swift:162-197 | a type listed twice in one request gets one observer |
| FitKitPlugin.ThrownReply | ios/Classes/SwiftFitKitPlugin.swift:59-61 | a thrown parse error becomes an error tagged `FitKit` whose message is `Error ` followed by the thrown text |
| FitKitPlugin.AllDetermined | ios/Classes/SwiftFitKitPlugin.swift:92-97 | true exactly when no requested type has status `notDetermined` |
| FitKitPlugin.HasPermissions | ios/Classes/SwiftFitKitPlugin.swift:76-100 | from iOS 12: an error tagged `FitKit` with message `hasPermissions` on a vendor error, else true exactly for status `unnecessary`; before: true exactly when no requested type is `notDetermined` |
| FitKitPlugin.NoTypesHavePermission | ios/Classes/SwiftFitKitPlugin.swift:92-98 | before iOS 12 an empty request answers true |
| FitKitPlugin.RequestPermissions | ios/Classes/SwiftFitKitPlugin.swift:102-111 | answers whether authorization succeeded |
| FitKitPlugin.AuthorizationFailure | ios/Classes/SwiftFitKitPlugin.swift:145-149 | a failed authorization gives an error tagged `FitKit` with message `Error ` and the vendor's description, or `Error empty` without one |
| FitKitPlugin.Read | ios/Classes/SwiftFitKitPlugin.swift:120-314 | failed authorization gives its tagged error; a dark screen an empty map; a failed query `Results are null`; otherwise the rows of the read rule |
| FitKitPlugin.Subscribe | ios/Classes/SwiftFitKitPlugin.swift:131-200 | answers whether authorization succeeded; without it nothing changes; with it the flag rule of `Register` applies, every observer watches one of the requested (type, unit) pairs with the request's filter, and no two observers share a flag key |
| FitKitPlugin.Handle | ios/Classes/SwiftFitKitPlugin.swift:31-62 | without health data every call gets the tagged `Not supported` error; `hasPermissions`, `requestPermissions`, `read` and `subscribe` with parsed arguments get exactly the answer and flag change of their handlers; unknown methods get not-implemented; `revokePermissions` answers null; a parse failure gives `Error <message>` tagged `FitKit`; every error is tagged `FitKit`; only `subscribe` changes flags, which grow by exactly the keys of the new observers, none set before, each once |
| FitKitPlugin.AtMostOneObserverPerType | ios/Classes/SwiftFitKitPlugin.swift:162-197 | across any sequence of calls, each completing before the next begins, no two observers share a flag key and none was flagged before |
| FitKitPlugin.FlagsOnlyGrow | ios/Classes/SwiftFitKitPlugin.swift:196 | flags are never cleared by any sequence of calls |
| FitKitPlugin.ObserversLostOnRelaunch | ios/Classes/SwiftFitKitPlugin.swift:162-196 | after a relaunch, which keeps the flags and drops the observers, subscribing again to types observed before registers no observer for them |

## Left out

- Flutter channel registration, the event-sink lifecycle and the result-callback plumbing: framework glue.
- HealthKit queries, authorization and background delivery: asynchronous vendor calls, modelled only through the `Vendor` input.
- `PermissionsRequest.swift` and `ReadRequest.swift` are not part of this model; their parsers are the `Parsers` input, and the read limit is taken as a natural number.
- The rendering of raw arguments in `invalid call arguments …` is Swift's; it is the `Platform.render` input.
- The anchored query behind subscription events (start-of-day window, the archived anchor in `UserDefaults`, the deprecated path): opaque persistence; only the mapping from delivered samples to events is modelled (`Records.EventRecords`).
- Unit conversion `doubleValue(for:)` is floating point: a quantity sample carries its amount already in the requested unit, and dates are integer milliseconds.
- The `unit` entry holds the model's `Unit` value, not HealthKit's `unitString` text.
- `readSource`'s iOS 9 branch: a sample carries a single source name.
- The `strictStartDate` window is taken as start in [from, to); HealthKit's boundary handling is the vendor's.
- Ties in the HealthKit and Swift sorts: the model's insertion sort fixes one tie order; the contracts state only sortedness and permutation.
- Metadata values other than numbers and text, and Objective-C bridging beyond "true is the number 1" and the NSNumber-to-Bool cast of 0 and 1.
- The flag key is taken to be the prefix followed by the sample type's identifier (the type's description).
- `FitKitPlugin.Reply`: the `details` of a `FlutterError` (the HealthKit error object at SwiftFitKitPlugin.swift:80, 170 and 288) is dropped; an `ErrorReply` carries only code and message.
- SubscribeRequests.FromCall: the trap of the forced cast `as! Bool` (SubscribeRequest.swift:27) is not modelled; the `Admissible` requires (and `CallAdmissible` for `Handle`) excludes the trapping calls, which are those with valid names whose `ignoreManualData` is missing or neither a Bool nor the number 0 or 1.
- FitKitPlugin.AtMostOneObserverPerType: observers live only in the process while the flags persist in `UserDefaults`, so after a relaunch a flagged type is never observed again (`FitKitPlugin.ObserversLostOnRelaunch`); "at most one" holds across relaunches, but "at least one" does not. Calls are also taken to complete one at a time: `subscribeToChanges` runs in the completion handler of `requestAuthorization` (SwiftFitKitPlugin.swift:131-140), on HealthKit's queue, and the flag is read (line 163) and set (line 196) by separate calls, so two overlapping completions could both find a flag unset and both register an observer.
- Records.FilterMatchesUserEntered: the `ignoreManualData` filter applies only to the observer query that wakes the plugin; the anchored query that produces the events (SwiftFitKitPlugin.swift:213-215) filters by date alone, so user-entered samples are still sent as events. The event query is not modelled.
- `abort()` on an observer error, `fatalError` on a nil anchored result, debug printing.

=== FILE: calls.dfy ===
/**
 * The values a platform-channel call carries as its arguments, and the
 * errors the argument parsers throw.
 */
module Calls {
  import opened Wrappers

  /** A value decoded from the channel: what Swift sees as `Any?`. */
  datatype Arg =
    | NullArg
    | BoolArg(flag: bool)
    | IntArg(number: int)
    | StringArg(text: string)
    | ListArg(items: seq<Arg>)
    | MapArg(entries: map<Arg, Arg>)

  /** A method call arriving on the channel. */
  datatype Call = Call(methodName: string, arguments: Arg)

  /** The Swift `String` errors the parsers throw. */
  datatype Thrown =
    | InvalidCallArguments(arguments: Arg)  // "invalid call arguments <the arguments>"
    | Message(text: string)                 // a lookup error, thrown verbatim

  /**
   * The thrown string. `render` is Swift's textual rendering of the raw
   * arguments, which belongs to the runtime and is taken as an input.
   */
  function Description(t: Thrown, render: Arg -> string): string {
    match t
    case InvalidCallArguments(a) => "invalid call arguments " + render(a)
    case Message(text) => text
  }

  /** `as? [String: Any]` succeeds on a map whose keys are all strings. */
  predicate StringKeyed(a: Arg) {
    a.MapArg? && forall k | k in a.entries :: k.StringArg?
  }

  /** The entry stored under a string key. */
  function Field(a: Arg, key: string): (r: Option<Arg>)
    requires a.MapArg?
    ensures r.Some? <==> StringArg(key) in a.entries
    ensures r.Some? ==> r.value == a.entries[StringArg(key)]
  {
    if StringArg(key) in a.entries then Some(a.entries[StringArg(key)]) else None
  }

  /** `as? [String]` on a list: succeeds exactly when every item is a string. */
  function StringList(items: seq<Arg>): (r: Option<seq<string>>)
    ensures r.Some? <==> forall i | 0 <= i < |items| :: items[i].StringArg?
    ensures r.Some? ==> |r.value| == |items|
    ensures r.Some? ==> forall i | 0 <= i < |items| :: r.value[i] == items[i].text
  {
    if items == [] then Some([])
    else if !items[0].StringArg? then None
    else
      match StringList(items[1..])
      case None => None
      case Some(rest) => Some([items[0].text] + rest)
  }

  /** `value as? [String]` for an arbitrary value: only lists of strings qualify. */
  function AsStringList(a: Arg): (r: Option<seq<string>>)
    ensures r.Some? <==> a.ListArg? && forall i | 0 <= i < |a.items| :: a.items[i].StringArg?
    ensures r.Some? ==> |r.value| == |a.items|
    ensures r.Some? ==> forall i | 0 <= i < |a.items| :: r.value[i] == a.items[i].text
  {
    if a.ListArg? then StringList(a.items) else None
  }

  /**
   * `as! Bool` without the trap: a Bool, or a number that Foundation's
   * NSNumber bridging converts losslessly, which only 0 and 1 are.
   */
  function AsBool(a: Arg): (r: Option<bool>)
    ensures r.Some? <==> a.BoolArg? || a == IntArg(0) || a == IntArg(1)
    ensures r.Some? && a.BoolArg? ==> r.value == a.flag
    ensures r.Some? && a.IntArg? ==> (r.value <==> a.number == 1)
  {
    match a
    case BoolArg(b) => Some(b)
    case IntArg(n) => if n == 0 then Some(false) else if n == 1 then Some(true) else None
    case _ => None
  }
}

=== FILE: extensions.dfy ===
/**
 * The metric table of the bridge: the nine application-level metric names,
 * the HealthKit sample type and the HealthKit unit each one stands for, and
 * the reverse map from a sample type's identifier back to the name.
 */
module Extensions {
  import opened Wrappers

  /** A HealthKit sample type: quantity or category, and its identifier string. */
  datatype SampleType = QuantityType(identifier: string) | CategoryType(identifier: string)

  /** The HealthKit units the table uses. */
  datatype Unit =
    | CountPerMinute          // "count/min"
    | Count
    | Meter
    | Kilogram                // gram with the kilo prefix
    | Kilocalorie
    | Liter
    | Minute
    | MilligramPerDeciliter   // "mg/dl"

  /** The nine metrics of the table. */
  datatype Metric = HeartRate | StepCount | Height | Weight | Distance | Energy | Water | Sleep | BloodGlucose

  /** The metric names the bridge understands, in table order. */
  const SupportedNames: seq<string> :=
    ["heart_rate", "step_count", "height", "weight", "distance",
     "energy", "water", "sleep", "blood_glucose"]

  /** The application-level name of a metric. */
  function Name(m: Metric): string {
    match m
    case HeartRate => "heart_rate"
    case StepCount => "step_count"
    case Height => "height"
    case Weight => "weight"
    case Distance => "distance"
    case Energy => "energy"
    case Water => "water"
    case Sleep => "sleep"
    case BloodGlucose => "blood_glucose"
  }

  /** The HealthKit identifier of a metric's sample type. */
  function Identifier(m: Metric): string {
    match m
    case HeartRate => "HKQuantityTypeIdentifierHeartRate"
    case StepCount => "HKQuantityTypeIdentifierStepCount"
    case Height => "HKQuantityTypeIdentifierHeight"
    case Weight => "HKQuantityTypeIdentifierBodyMass"
    case Distance => "HKQuantityTypeIdentifierDistanceWalkingRunning"
    case Energy => "HKQuantityTypeIdentifierActiveEnergyBurned"
    case Water => "HKQuantityTypeIdentifierDietaryWater"
    case Sleep => "HKCategoryTypeIdentifierSleepAnalysis"
    case BloodGlucose => "HKQuantityTypeIdentifierBloodGlucose"
  }

  /** The sample type of a metric: sleep is a category, everything else a quantity. */
  function MetricSampleType(m: Metric): SampleType {
    if m == Sleep then CategoryType(Identifier(m)) else QuantityType(Identifier(m))
  }

  /** The unit of a metric; sleep's minute is never used. */
  function MetricUnit(m: Metric): Unit {
    match m
    case HeartRate => CountPerMinute
    case StepCount => Count
    case Height => Meter
    case Weight => Kilogram
    case Distance => Meter
    case Energy => Kilocalorie
    case Water => Liter
    case Sleep => Minute
    case BloodGlucose => MilligramPerDeciliter
  }

  /** The `switch type` of both forward lookups: which metric a name denotes, if any. */
  function ParseName(name: string): (r: Option<Metric>)
    ensures r.Some? <==> name in SupportedNames
    ensures r.Some? ==> Name(r.value) == name
  {
    match name
    case "heart_rate" => Some(HeartRate)
    case "step_count" => Some(StepCount)
    case "height" => Some(Height)
    case "weight" => Some(Weight)
    case "distance" => Some(Distance)
    case "energy" => Some(Energy)
    case "water" => Some(Water)
    case "sleep" => Some(Sleep)
    case "blood_glucose" => Some(BloodGlucose)
    case _ => None
  }

  /** The `switch type.identifier` of the reverse map: which metric an identifier belongs to, if any. */
  function ParseIdentifier(id: string): (r: Option<Metric>)
    ensures r.Some? ==> Identifier(r.value) == id
  {
    match id
    case "HKQuantityTypeIdentifierHeartRate" => Some(HeartRate)
    case "HKQuantityTypeIdentifierStepCount" => Some(StepCount)
    case "HKQuantityTypeIdentifierHeight" => Some(Height)
    case "HKQuantityTypeIdentifierBodyMass" => Some(Weight)
    case "HKQuantityTypeIdentifierDistanceWalkingRunning" => Some(Distance)
    case "HKQuantityTypeIdentifierActiveEnergyBurned" => Some(Energy)
    case "HKQuantityTypeIdentifierDietaryWater" => Some(Water)
    case "HKCategoryTypeIdentifierSleepAnalysis" => Some(Sleep)
    case "HKQuantityTypeIdentifierBloodGlucose" => Some(BloodGlucose)
    case _ => None
  }

  /** Every metric's name denotes that metric. */
  lemma ParseNameInverts(m: Metric)
    ensures ParseName(Name(m)) == Some(m)
  {
  }

  /** Every metric's identifier is recognised as that metric's. */
  lemma ParseIdentifierInverts(m: Metric)
    ensures ParseIdentifier(Identifier(m)) == Some(m)
  {
  }

  /** The error both forward lookups throw for a name outside the table. */
  function NotSupportedMessage(name: string): string {
    "type \"" + name + "\" is not supported"
  }

  /**
   * `HKSampleType.fromDartType`. `atLeastIOS9` stands for the
   * `#available(iOS 9, *)` test guarding the dietary-water type.
   */
  function SampleTypeFromDartType(name: string, atLeastIOS9: bool): (r: Result<SampleType, string>)
    ensures r.Success? <==> name in SupportedNames && (name == "water" ==> atLeastIOS9)
    ensures r.Failure? ==> r.error == NotSupportedMessage(name)
    ensures r.Success? ==> (r.value.CategoryType? <==> name == "sleep")
    ensures r.Success? ==> ToDartType(r.value) == name
  {
    match ParseName(name)
    case None => Failure(NotSupportedMessage(name))
    case Some(m) =>
      if m == Water && !atLeastIOS9 then Failure(NotSupportedMessage(name))
      else
        ParseIdentifierInverts(m);
        Success(MetricSampleType(m))
  }

  /** `HKUnit.fromDartType`. */
  function UnitFromDartType(name: string): (r: Result<Unit, string>)
    ensures r.Success? <==> name in SupportedNames
    ensures r.Failure? ==> r.error == NotSupportedMessage(name)
  {
    match ParseName(name)
    case None => Failure(NotSupportedMessage(name))
    case Some(m) => Success(MetricUnit(m))
  }

  /** `HKSampleType.toDartType`: total, with `""` for any identifier outside the table. */
  function ToDartType(t: SampleType): (name: string)
    ensures name == "" <==> forall m: Metric :: Identifier(m) != t.identifier
    ensures name != "" ==> name in SupportedNames
  {
    match ParseIdentifier(t.identifier)
    case None =>
      assert forall m: Metric :: Identifier(m) != t.identifier by {
        forall m: Metric ensures Identifier(m) != t.identifier {
          ParseIdentifierInverts(m);
        }
      }
      ""
    case Some(m) =>
      ParseNameInverts(m);
      Name(m)
  }

  /** Every name the forward lookup accepts comes back unchanged from the reverse map. */
  lemma RoundTrip(name: string, atLeastIOS9: bool)
    requires SampleTypeFromDartType(name, atLeastIOS9).Success?
    ensures ToDartType(SampleTypeFromDartType(name, atLeastIOS9).value) == name
  {
    ParseIdentifierInverts(ParseName(name).value);
  }

  /** Every identifier the reverse map recognises is produced by the forward lookup of its name. */
  lemma ReverseRoundTrip(t: SampleType)
    requires ToDartType(t) != ""
    ensures SampleTypeFromDartType(ToDartType(t), true).Success?
    ensures SampleTypeFromDartType(ToDartType(t), true).value.identifier == t.identifier
  {
    ParseNameInverts(ParseIdentifier(t.identifier).value);
  }

  /** Distinct supported names give distinct sample types. */
  lemma {:induction false} SampleTypeInjective(a: string, b: string, atLeastIOS9: bool)
    requires a in SupportedNames && (a == "water" ==> atLeastIOS9)
    requires b in SupportedNames && (b == "water" ==> atLeastIOS9)
    requires a != b
    ensures SampleTypeFromDartType(a, atLeastIOS9).value != SampleTypeFromDartType(b, atLeastIOS9).value
  {
    RoundTrip(a, atLeastIOS9);
    RoundTrip(b, atLeastIOS9);
  }

  /** On a platform with dietary water, both forward lookups accept exactly the same names. */
  lemma SameDomain(name: string)
    ensures SampleTypeFromDartType(name, true).Success? <==> UnitFromDartType(name).Success?
    ensures SampleTypeFromDartType(name, true).Failure? ==>
      SampleTypeFromDartType(name, true).error == UnitFromDartType(name).error
  {
  }

  /** Before iOS 9 `water` has a unit but no sample type. */
  lemma WaterNeedsIOS9()
    ensures SampleTypeFromDartType("water", false) == Failure(NotSupportedMessage("water"))
    ensures UnitFromDartType("water") == Success(Liter)
    ensures SampleTypeFromDartType("water", true) == Success(QuantityType("HKQuantityTypeIdentifierDietaryWater"))
  {
  }

  /** `height` and `distance` share the meter, so the unit map is not injective. */
  lemma UnitNotInjective()
    ensures UnitFromDartType("height") == UnitFromDartType("distance") == Success(Meter)
  {
  }

  /** Consequently no map from units back to names inverts the unit lookup. */
  lemma {:induction false} NoUnitInverse(back: Unit -> string)
    ensures exists name :: name in SupportedNames && back(UnitFromDartType(name).value) != name
  {
    UnitNotInjective();
    if back(Meter) != "height" {
      assert "height" in SupportedNames && back(UnitFromDartType("height").value) != "height";
    } else {
      assert "distance" in SupportedNames && back(UnitFromDartType("distance").value) != "distance";
    }
  }
}

=== FILE: plugin.dfy ===
/**
 * `SwiftFitKitPlugin.handle` and the handlers behind it, with HealthKit,
 * the platform and the persisted flags turned into inputs and outputs.
 */
module FitKitPlugin {
  import opened Wrappers
  import opened Extensions
  import opened Calls
  import opened SubscribeRequests
  import opened Samples
  import opened Records
  import opened Reads
  import opened Subscriptions

  /** The code of every error the plugin reports. */
  const Tag := "FitKit"

  /** What the plugin passes to the Flutter result callback. */
  datatype Reply =
    | NullReply                               // revokePermissions
    | BoolReply(answer: bool)
    | RowsReply(rows: seq<Record>)
    | EmptyMapReply                           // read while the screen is dark
    | ErrorReply(code: string, message: string)
    | NotImplemented                          // FlutterMethodNotImplemented

  /** `HKAuthorizationStatus`. */
  datatype AuthorizationStatus = NotDetermined | SharingDenied | SharingAuthorized

  /** `HKAuthorizationRequestStatus`. */
  datatype RequestStatus = StatusUnknown | ShouldRequest | Unnecessary

  /** The arguments of a permissions call. */
  datatype PermissionsRequest = PermissionsRequest(sampleTypes: seq<SampleType>)

  /**
   * The device: whether HealthKit is usable, which OS versions are met, whether
   * the screen is lit, and Swift's rendering of raw arguments in messages.
   */
  datatype Platform = Platform(
    healthDataAvailable: bool,
    atLeastIOS9: bool,
    atLeastIOS12: bool,
    screenLit: bool,
    render: Arg -> string)

  /** What HealthKit answers to the calls one request makes. */
  datatype Vendor = Vendor(
    authorizationGranted: bool,                         // requestAuthorization's success
    authorizationError: Option<string>,                 // its error description
    authorizationStatus: SampleType -> AuthorizationStatus,
    requestStatusFailed: bool,                          // getRequestStatusForAuthorization's error
    requestStatus: RequestStatus,
    store: Option<seq<Sample>>)                         // samples of the read type; None when the query fails

  /** The parsers of `PermissionsRequest` and `ReadRequest`. */
  datatype Parsers = Parsers(
    permissions: Arg -> Result<PermissionsRequest, Thrown>,
    read: Arg -> Result<ReadRequest, Thrown>)

  /** The reply of a call, the flag set after it, and the observers it registered. */
  datatype Outcome = Outcome(reply: Reply, flags: set<string>, observers: seq<Observer>)

  /** The five method names `handle` routes. */
  const Methods: set<string> := {"hasPermissions", "requestPermissions", "revokePermissions", "read", "subscribe"}

  /** The reply for an error thrown while parsing the arguments. */
  function ThrownReply(t: Thrown, platform: Platform): (r: Reply)
    ensures r.ErrorReply? && r.code == Tag
    ensures t.Message? ==> r.message == "Error " + t.text
    ensures t.InvalidCallArguments? ==> r.message == "Error invalid call arguments " + platform.render(t.arguments)
  {
    ErrorReply(Tag, "Error " + Description(t, platform.render))
  }

  /** `allSatisfy { $0 != .notDetermined }` over the statuses of the requested types. */
  function AllDetermined(types: seq<SampleType>, status: SampleType -> AuthorizationStatus): (r: bool)
    ensures r <==> forall i | 0 <= i < |types| :: status(types[i]) != NotDetermined
  {
    if types == [] then true
    else if status(types[0]) == NotDetermined then false
    else
      assert forall i | 1 <= i < |types| :: types[i] == types[1..][i - 1];
      AllDetermined(types[1..], status)
  }

  /** `hasPermissions`. */
  function HasPermissions(req: PermissionsRequest, platform: Platform, vendor: Vendor): (r: Reply)
    ensures platform.atLeastIOS12 && vendor.requestStatusFailed ==> r == ErrorReply(Tag, "hasPermissions")
    ensures platform.atLeastIOS12 && !vendor.requestStatusFailed ==>
      r == BoolReply(vendor.requestStatus == Unnecessary)
    ensures !platform.atLeastIOS12 ==>
      r.BoolReply? && (r.answer <==> forall t | t in req.sampleTypes :: vendor.authorizationStatus(t) != NotDetermined)
  {
    if platform.atLeastIOS12 then
      if vendor.requestStatusFailed then ErrorReply(Tag, "hasPermissions")
      else if vendor.requestStatus != Unnecessary then BoolReply(false)
      else BoolReply(true)
    else
      BoolReply(AllDetermined(req.sampleTypes, vendor.authorizationStatus))
  }

  /** Before iOS 12, asking about no types at all answers true. */
  lemma NoTypesHavePermission(platform: Platform, vendor: Vendor)
    requires !platform.atLeastIOS12
    ensures HasPermissions(PermissionsRequest([]), platform, vendor) == BoolReply(true)
  {
  }

  /** `requestPermissions`. */
  function RequestPermissions(vendor: Vendor): (r: Reply)
    ensures r == BoolReply(vendor.authorizationGranted)
  {
    if vendor.authorizationGranted then BoolReply(true) else BoolReply(false)
  }

  /** The error `requestAuthorization` hands on when authorization fails. */
  function AuthorizationFailure(vendor: Vendor): (r: Reply)
    ensures r.ErrorReply? && r.code == Tag
    ensures vendor.authorizationError.Some? ==> r.message == "Error " + vendor.authorizationError.value
    ensures vendor.authorizationError.None? ==> r.message == "Error empty"
  {
    ErrorReply(Tag, "Error " + vendor.authorizationError.GetOr("empty"))
  }

  /** `read`, followed by `readSample`. */
  function Read(req: ReadRequest, platform: Platform, vendor: Vendor): (r: Reply)
    ensures !vendor.authorizationGranted ==> r == AuthorizationFailure(vendor)
    ensures vendor.authorizationGranted && !platform.screenLit ==> r == EmptyMapReply
    ensures vendor.authorizationGranted && platform.screenLit && vendor.store.None? ==>
      r == ErrorReply(Tag, "Results are null")
    ensures vendor.authorizationGranted && platform.screenLit && vendor.store.Some? ==>
      r.RowsReply? && r.rows == ReadRecords(ReadSamples(req, vendor.store.value), req.unit)
  {
    if !vendor.authorizationGranted then AuthorizationFailure(vendor)
    else if !platform.screenLit then EmptyMapReply
    else
      match vendor.store
      case None => ErrorReply(Tag, "Results are null")
      case Some(samples) => RowsReply(ReadRecords(ReadSamples(req, samples), req.unit))
  }

  /** `subscribe`, followed by `subscribeToChanges`, which always answers true. */
  function Subscribe(req: SubscribeRequest, flags: set<string>, vendor: Vendor): (r: Outcome)
    ensures r.reply == BoolReply(vendor.authorizationGranted)
    ensures !vendor.authorizationGranted ==> r.flags == flags && r.observers == []
    ensures vendor.authorizationGranted ==>
      r.flags == flags + RequestedKeys(req.sampleTypes)
      && ObserverKeys(r.observers) == RequestedKeys(req.sampleTypes) - flags
      && forall j | 0 <= j < |r.observers| :: r.observers[j].excludeUserEntered == req.ignoreManualData
    ensures vendor.authorizationGranted ==>
      DrawnFrom(r.observers, req.sampleTypes, req.ignoreManualData) && DistinctKeys(r.observers)
  {
    if !vendor.authorizationGranted then Outcome(BoolReply(false), flags, [])
    else
      var reg := Register(flags, req.sampleTypes, req.ignoreManualData);
      Outcome(BoolReply(true), reg.flags, reg.observers)
  }

  /** What `handle` needs of a call: the forced cast of `subscribe`'s flag must not trap. */
  predicate CallAdmissible(call: Call, platform: Platform) {
    platform.healthDataAvailable && call.methodName == "subscribe" ==>
      Admissible(call.arguments, platform.atLeastIOS9)
  }

  /** The error reply of a method whose arguments failed to parse, if they did. */
  function ParseFailure(call: Call, platform: Platform, parsers: Parsers): Option<Thrown>
    requires CallAdmissible(call, platform)
  {
    if call.methodName in {"hasPermissions", "requestPermissions"} && parsers.permissions(call.arguments).Failure? then
      Some(parsers.permissions(call.arguments).error)
    else if call.methodName == "read" && parsers.read(call.arguments).Failure? then
      Some(parsers.read(call.arguments).error)
    else if call.methodName == "subscribe" && platform.healthDataAvailable
            && FromCall(call.arguments, platform.atLeastIOS9).Failure? then
      Some(FromCall(call.arguments, platform.atLeastIOS9).error)
    else None
  }

  /** A reply that registers nothing and leaves the flags alone. */
  function NoChange(flags: set<string>, reply: Reply): Outcome {
    Outcome(reply, flags, [])
  }

  /** `handle`: availability check, then dispatch on the method name. */
  function Handle(call: Call, flags: set<string>, platform: Platform, vendor: Vendor, parsers: Parsers): (r: Outcome)
    requires CallAdmissible(call, platform)
    ensures !platform.healthDataAvailable ==> r == Outcome(ErrorReply(Tag, "Not supported"), flags, [])
    ensures platform.healthDataAvailable && call.methodName !in Methods ==> r == Outcome(NotImplemented, flags, [])
    ensures platform.healthDataAvailable && call.methodName == "revokePermissions" ==> r.reply == NullReply
    ensures platform.healthDataAvailable && ParseFailure(call, platform, parsers).Some? ==>
      r == Outcome(ThrownReply(ParseFailure(call, platform, parsers).value, platform), flags, [])
    ensures platform.healthDataAvailable && call.methodName == "hasPermissions" && parsers.permissions(call.arguments).Success? ==>
      r == Outcome(HasPermissions(parsers.permissions(call.arguments).value, platform, vendor), flags, [])
    ensures platform.healthDataAvailable && call.methodName == "requestPermissions" && parsers.permissions(call.arguments).Success? ==>
      r == Outcome(RequestPermissions(vendor), flags, [])
    ensures platform.healthDataAvailable && call.methodName == "read" && parsers.read(call.arguments).Success? ==>
      r == Outcome(Read(parsers.read(call.arguments).value, platform, vendor), flags, [])
    ensures platform.healthDataAvailable && call.methodName == "subscribe" && FromCall(call.arguments, platform.atLeastIOS9).Success? ==>
      r == Subscribe(FromCall(call.arguments, platform.atLeastIOS9).value, flags, vendor)
    ensures r.reply.ErrorReply? ==> r.reply.code == Tag
    ensures call.methodName != "subscribe" ==> r.flags == flags && r.observers == []
    ensures r.flags == flags + ObserverKeys(r.observers)
    ensures ObserverKeys(r.observers) !! flags
    ensures DistinctKeys(r.observers)
  {
    if !platform.healthDataAvailable then NoChange(flags, ErrorReply(Tag, "Not supported"))
    else if call.methodName == "hasPermissions" then
      match parsers.permissions(call.arguments)
      case Failure(t) => NoChange(flags, ThrownReply(t, platform))
      case Success(req) => NoChange(flags, HasPermissions(req, platform, vendor))
    else if call.methodName == "requestPermissions" then
      match parsers.permissions(call.arguments)
      case Failure(t) => NoChange(flags, ThrownReply(t, platform))
      case Success(_) => NoChange(flags, RequestPermissions(vendor))
    else if call.methodName == "revokePermissions" then NoChange(flags, NullReply)
    else if call.methodName == "read" then
      match parsers.read(call.arguments)
      case Failure(t) => NoChange(flags, ThrownReply(t, platform))
      case Success(req) => NoChange(flags, Read(req, platform, vendor))
    else if call.methodName == "subscribe" then
      match FromCall(call.arguments, platform.atLeastIOS9)
      case Failure(t) => NoChange(flags, ThrownReply(t, platform))
      case Success(req) => Subscribe(req, flags, vendor)
    else NoChange(flags, NotImplemented)
  }

  /** One call of a session, with the device and HealthKit as they were for it. */
  datatype Step = Step(call: Call, platform: Platform, vendor: Vendor)

  /** The flags after a run of calls, and every observer registered along the way. */
  function Run(flags: set<string>, steps: seq<Step>, parsers: Parsers): Registration
    requires forall i | 0 <= i < |steps| :: CallAdmissible(steps[i].call, steps[i].platform)
    decreases |steps|
  {
    if steps == [] then Registration(flags, [])
    else
      var first := Handle(steps[0].call, flags, steps[0].platform, steps[0].vendor, parsers);
      var rest := Run(first.flags, steps[1..], parsers);
      Registration(rest.flags, first.observers + rest.observers)
  }

  /** Concatenating observer lists with disjoint keys keeps the keys distinct. */
  lemma DistinctKeysAppend(a: seq<Observer>, b: seq<Observer>)
    requires DistinctKeys(a) && DistinctKeys(b)
    requires ObserverKeys(a) !! ObserverKeys(b)
    ensures DistinctKeys(a + b)
    ensures ObserverKeys(a + b) == ObserverKeys(a) + ObserverKeys(b)
  {
    var ab := a + b;
    forall i, j | 0 <= i < j < |ab| ensures FlagKey(ab[i].sampleType) != FlagKey(ab[j].sampleType) {
      if j < |a| {
        assert ab[i] == a[i] && ab[j] == a[j];
      } else if i >= |a| {
        assert ab[i] == b[i - |a|] && ab[j] == b[j - |a|];
      } else {
        assert ab[i] == a[i] && ab[j] == b[j - |a|];
        assert FlagKey(a[i].sampleType) in ObserverKeys(a);
        assert FlagKey(b[j - |a|].sampleType) in ObserverKeys(b);
      }
    }
    forall k | k in ObserverKeys(ab) ensures k in ObserverKeys(a) + ObserverKeys(b) {
      var i :| 0 <= i < |ab| && k == FlagKey(ab[i].sampleType);
      if i < |a| { assert ab[i] == a[i]; } else { assert ab[i] == b[i - |a|]; }
    }
    forall k | k in ObserverKeys(a) + ObserverKeys(b) ensures k in ObserverKeys(ab) {
      if k in ObserverKeys(a) {
        var i :| 0 <= i < |a| && k == FlagKey(a[i].sampleType);
        assert ab[i] == a[i];
      } else {
        var i :| 0 <= i < |b| && k == FlagKey(b[i].sampleType);
        assert ab[|a| + i] == b[i];
      }
    }
  }

  /**
   * Across any sequence of calls, each sample type gets at most one observer:
   * no two registered observers share a flag key, none was flagged before the
   * run, and the flags only ever gain the keys of the observers registered.
   */
  lemma {:induction false} AtMostOneObserverPerType(flags: set<string>, steps: seq<Step>, parsers: Parsers)
    requires forall i | 0 <= i < |steps| :: CallAdmissible(steps[i].call, steps[i].platform)
    ensures DistinctKeys(Run(flags, steps, parsers).observers)
    ensures ObserverKeys(Run(flags, steps, parsers).observers) !! flags
    ensures Run(flags, steps, parsers).flags == flags + ObserverKeys(Run(flags, steps, parsers).observers)
    decreases |steps|
  {
    if steps != [] {
      var first := Handle(steps[0].call, flags, steps[0].platform, steps[0].vendor, parsers);
      AtMostOneObserverPerType(first.flags, steps[1..], parsers);
      var rest := Run(first.flags, steps[1..], parsers);
      DistinctKeysAppend(first.observers, rest.observers);
    }
  }

  /** Flags are never cleared: every flag set before a run is still set after it. */
  lemma {:induction false} FlagsOnlyGrow(flags: set<string>, steps: seq<Step>, parsers: Parsers)
    requires forall i | 0 <= i < |steps| :: CallAdmissible(steps[i].call, steps[i].platform)
    ensures flags <= Run(flags, steps, parsers).flags
  {
    AtMostOneObserverPerType(flags, steps, parsers);
  }

  /**
   * A relaunch keeps the flags, which persist in `UserDefaults`, and loses the
   * observer queries, which live in the process. Subscribing again to types
   * observed before the relaunch registers no observer for them.
   */
  lemma {:induction false} ObserversLostOnRelaunch(
    flags: set<string>, steps: seq<Step>, parsers: Parsers, req: SubscribeRequest, vendor: Vendor)
    requires forall i | 0 <= i < |steps| :: CallAdmissible(steps[i].call, steps[i].platform)
    requires RequestedKeys(req.sampleTypes) <= ObserverKeys(Run(flags, steps, parsers).observers)
    ensures Subscribe(req, Run(flags, steps, parsers).flags, vendor).observers == []
    ensures Subscribe(req, Run(flags, steps, parsers).flags, vendor).flags == Run(flags, steps, parsers).flags
  {
    AtMostOneObserverPerType(flags, steps, parsers);
    FlaggedRegistersNothing(Run(flags, steps, parsers).flags, req.sampleTypes, req.ignoreManualData);
  }
}

=== FILE: read.dfy ===
/**
 * The read rule of `readSample`: the samples whose start lies in the
 * requested window, sorted by end date (ascending without a limit,
 * descending with one), cut to the limit by HealthKit, and, when a limit
 * was given, sorted back into ascending start-date order.
 */
module Reads {
  import opened Wrappers
  import opened Extensions
  import opened Samples

  /** The arguments of a read call, as `ReadRequest` holds them. */
  datatype ReadRequest = ReadRequest(
    typeName: string,
    sampleType: SampleType,
    unit: Unit,
    dateFrom: int,
    dateTo: int,
    limit: Option<nat>)

  /** `HKObjectQueryNoLimit`: a limit of 0 asks HealthKit for every sample. */
  const NoLimit: nat := 0

  /** The `.strictStartDate` window: the sample must start inside [from, to). */
  predicate InWindow(s: Sample, from: int, to: int) {
    from <= s.start < to
  }

  /** The samples of `store` inside the window, in store order. */
  function Window(store: seq<Sample>, from: int, to: int): (r: seq<Sample>)
    ensures forall x :: multiset(r)[x] == if InWindow(x, from, to) then multiset(store)[x] else 0
  {
    if store == [] then []
    else
      assert store == [store[0]] + store[1..];
      (if InWindow(store[0], from, to) then [store[0]] else []) + Window(store[1..], from, to)
  }

  /** A sorted sequence's prefix holds samples no smaller in the sort than any left behind. */
  lemma {:induction false} PrefixPrecedesRest(s: seq<Sample>, o: Order, k: nat)
    requires SortedBy(s, o)
    requires k <= |s|
    ensures SortedBy(s[..k], o)
    ensures multiset(s[..k]) <= multiset(s)
    ensures multiset(s) - multiset(s[..k]) == multiset(s[k..])
    ensures forall x, y | x in multiset(s[..k]) && y in multiset(s[k..]) :: Key(x, o) <= Key(y, o)
  {
    assert s == s[..k] + s[k..];
    forall i, j | 0 <= i < j < k ensures Key(s[..k][i], o) <= Key(s[..k][j], o) {
      assert s[..k][i] == s[i] && s[..k][j] == s[j];
    }
    forall x, y | x in multiset(s[..k]) && y in multiset(s[k..]) ensures Key(x, o) <= Key(y, o) {
      var i :| 0 <= i < k && s[..k][i] == x;
      var j :| 0 <= j < |s| - k && s[k..][j] == y;
      assert s[i] == x && s[k + j] == y;
    }
  }

  /**
   * What the `HKSampleQuery` hands back: the matching samples sorted by `o`,
   * cut to the first `limit` of them unless `limit` is `NoLimit`.
   */
  function VendorQuery(matching: seq<Sample>, o: Order, limit: nat): (r: seq<Sample>)
    ensures SortedBy(r, o)
    ensures multiset(r) <= multiset(matching)
    ensures limit == NoLimit ==> multiset(r) == multiset(matching)
    ensures limit != NoLimit ==> |r| == if limit < |matching| then limit else |matching|
    ensures forall x, y | x in multiset(r) && y in multiset(matching) - multiset(r) :: Key(x, o) <= Key(y, o)
  {
    var sorted := Sort(matching, o);
    var kept := if limit == NoLimit || limit >= |sorted| then |sorted| else limit;
    PrefixPrecedesRest(sorted, o, kept);
    sorted[..kept]
  }

  /** Every sample of the window is a sample of the store that starts inside it. */
  lemma WindowMembers(store: seq<Sample>, from: int, to: int)
    ensures forall x | x in multiset(Window(store, from, to)) :: x in store && InWindow(x, from, to)
  {
    forall x | x in multiset(Window(store, from, to)) ensures x in store && InWindow(x, from, to) {
      assert multiset(Window(store, from, to))[x] > 0;
    }
  }

  /** The samples `readSample` reports, in the order it reports them. */
  function ReadSamples(req: ReadRequest, store: seq<Sample>): (r: seq<Sample>)
    ensures multiset(r) <= multiset(Window(store, req.dateFrom, req.dateTo))
    ensures req.limit.None? ==> SortedBy(r, EndAscending)
    ensures req.limit.Some? ==> SortedBy(r, StartAscending)
  {
    var w := Window(store, req.dateFrom, req.dateTo);
    match req.limit
    case None => VendorQuery(w, EndAscending, NoLimit)
    case Some(k) => Sort(VendorQuery(w, EndDescending, k), StartAscending)
  }

  /** Every reported sample is a sample of the store that starts inside the window. */
  lemma {:induction false} ReadStaysInWindow(req: ReadRequest, store: seq<Sample>)
    ensures forall x | x in ReadSamples(req, store) :: x in store && InWindow(x, req.dateFrom, req.dateTo)
  {
    WindowMembers(store, req.dateFrom, req.dateTo);
    var r := ReadSamples(req, store);
    forall x | x in r ensures x in store && InWindow(x, req.dateFrom, req.dateTo) {
      assert x in multiset(r);
    }
  }

  /** Without a limit (or with limit 0) every sample of the window is reported. */
  lemma ReadWithoutLimitIsComplete(req: ReadRequest, store: seq<Sample>)
    requires req.limit.None? || req.limit == Some(NoLimit)
    ensures multiset(ReadSamples(req, store)) == multiset(Window(store, req.dateFrom, req.dateTo))
  {
  }

  /**
   * With a limit k > 0, min(k, n) of the n samples in the window are reported,
   * and none left out ends later than one reported.
   */
  lemma ReadWithLimitKeepsLatest(req: ReadRequest, store: seq<Sample>)
    requires req.limit.Some? && req.limit.value != NoLimit
    ensures var n := |Window(store, req.dateFrom, req.dateTo)|;
      |ReadSamples(req, store)| == if req.limit.value < n then req.limit.value else n
    ensures forall x, y | x in multiset(ReadSamples(req, store))
                       && y in multiset(Window(store, req.dateFrom, req.dateTo)) - multiset(ReadSamples(req, store)) ::
      x.end >= y.end
  {
    var w := Window(store, req.dateFrom, req.dateTo);
    var fetched := VendorQuery(w, EndDescending, req.limit.value);
    var r := ReadSamples(req, store);
    assert r == Sort(fetched, StartAscending);
    assert multiset(r) == multiset(fetched);
    forall x: Sample, y: Sample | x in multiset(r) && y in multiset(w) - multiset(r) ensures x.end >= y.end {
      assert Key(x, EndDescending) <= Key(y, EndDescending);
    }
  }

  /** A limit no smaller than the window loses nothing: only the order differs from an unlimited read. */
  lemma {:induction false} LargeLimitKeepsAll(req: ReadRequest, store: seq<Sample>)
    requires req.limit.Some? && req.limit.value >= |Window(store, req.dateFrom, req.dateTo)|
    ensures multiset(ReadSamples(req, store)) == multiset(ReadSamples(req.(limit := None), store))
  {
    var w := multiset(Window(store, req.dateFrom, req.dateTo));
    var r := multiset(ReadSamples(req, store));
    ReadWithoutLimitIsComplete(req.(limit := None), store);
    if req.limit.value == NoLimit {
      ReadWithoutLimitIsComplete(req, store);
    } else {
      ReadWithLimitKeepsLatest(req, store);
      assert |r| == |w|;
      assert |w - r| == |w| - |r| by {
        assert w == r + (w - r);
      }
    }
  }
}

=== FILE: records.dfy ===
/**
 * The dictionaries the bridge sends for each sample: the result rows of a
 * read and the events of a subscription.
 */
module Records {
  import opened Wrappers
  import opened Extensions
  import opened Samples

  /** `HKMetadataKeyWasUserEntered`. */
  const WasUserEnteredKey := "HKWasUserEntered"

  /** The `value` entry: a Double for quantities, an Int otherwise. */
  datatype FieldValue = DoubleValue(double: real) | IntValue(integer: int)

  /** One sample as a dictionary; `unit` is absent from subscription events. */
  datatype Record = Record(
    value: FieldValue,
    dateFrom: int,
    dateTo: int,
    source: string,
    userEntered: bool,
    typeName: string,
    unit: Option<Unit>)

  /** The metadata entry under the user-entered key, when there is one. */
  function UserEnteredEntry(s: Sample): Option<MetadataValue> {
    if s.metadata.Some? && WasUserEnteredKey in s.metadata.value then Some(s.metadata.value[WasUserEnteredKey])
    else None
  }

  /**
   * `sample.metadata?[HKMetadataKeyWasUserEntered] as? Bool == true`: the
   * metadata holds the key, and its value is the number that bridges to `true`.
   */
  function UserEntered(s: Sample): (b: bool)
    ensures b <==> s.metadata.Some? && WasUserEnteredKey in s.metadata.value
                   && s.metadata.value[WasUserEnteredKey] == MetaNumber(1)
  {
    UserEnteredEntry(s) == Some(MetaNumber(1))
  }

  /**
   * The observer predicate `metadata.HKWasUserEntered != YES` installed when
   * manual data is ignored; a missing entry compares unequal to `YES`.
   */
  function ObserverAdmits(excludeUserEntered: bool, s: Sample): (b: bool)
    ensures !excludeUserEntered ==> b
    ensures excludeUserEntered && s.metadata.None? ==> b
    ensures excludeUserEntered ==> (b <==> !UserEntered(s))
  {
    !excludeUserEntered || UserEnteredEntry(s) != Some(MetaNumber(1))
  }

  /**
   * The observer filter and the `user_entered` field agree: a filtering
   * observer is not woken by a user-entered sample. The filter guards only
   * the wake-up; the events it triggers come from a query filtered by date alone.
   */
  lemma FilterMatchesUserEntered(s: Sample)
    ensures ObserverAdmits(true, s) <==> !UserEntered(s)
    ensures ObserverAdmits(false, s)
  {
  }

  /** `readValue`: the quantity, the category value, or -1. */
  function ReadValue(s: Sample): (v: FieldValue)
    ensures v.DoubleValue? <==> s.kind.QuantitySample?
    ensures s.kind.QuantitySample? ==> v.double == s.kind.quantity
    ensures s.kind.CategorySample? ==> v == IntValue(s.kind.categoryValue)
    ensures s.kind.OtherSample? ==> v == IntValue(-1)
  {
    match s.kind
    case QuantitySample(q) => DoubleValue(q)
    case CategorySample(c) => IntValue(c)
    case OtherSample => IntValue(-1)
  }

  /**
   * The dictionary built for one sample: its value, its two dates, its
   * source, whether it was entered by hand, its metric name (empty for a
   * type outside the table) and the unit, if one is reported.
   */
  function ToRecord(s: Sample, unit: Option<Unit>): (r: Record)
    ensures r.dateFrom == s.start && r.dateTo == s.end && r.source == s.source && r.unit == unit
    ensures r.value == ReadValue(s)
    ensures r.userEntered <==> UserEnteredEntry(s) == Some(MetaNumber(1))
    ensures s.metadata.None? ==> !r.userEntered
    ensures r.typeName == "" <==> forall m: Metric :: Identifier(m) != s.sampleType.identifier
    ensures r.typeName != "" ==> r.typeName in SupportedNames
    ensures r.typeName != "" ==>
      (SampleTypeFromDartType(r.typeName, true).Success?
       && SampleTypeFromDartType(r.typeName, true).value.identifier == s.sampleType.identifier)
  {
    var name := ToDartType(s.sampleType);
    assert name != "" ==>
      (SampleTypeFromDartType(name, true).Success?
       && SampleTypeFromDartType(name, true).value.identifier == s.sampleType.identifier) by {
      if name != "" {
        ReverseRoundTrip(s.sampleType);
      }
    }
    Record(ReadValue(s), s.start, s.end, s.source, UserEntered(s), ToDartType(s.sampleType), unit)
  }

  /** The rows of a read result: every sample, in order, with the requested unit. */
  function ReadRecords(samples: seq<Sample>, unit: Unit): (r: seq<Record>)
    ensures |r| == |samples|
    ensures forall i | 0 <= i < |r| :: r[i].unit == Some(unit)
    ensures forall i | 0 <= i < |r| :: r[i].dateFrom == samples[i].start && r[i].dateTo == samples[i].end
    ensures forall i | 0 <= i < |r| ::
      r[i].value == ReadValue(samples[i]) && r[i].userEntered == UserEntered(samples[i])
      && r[i].typeName == ToDartType(samples[i].sampleType) && r[i].source == samples[i].source
  {
    seq(|samples|, i requires 0 <= i < |samples| => ToRecord(samples[i], Some(unit)))
  }

  /** The events of a subscription: the same rows without the `unit` entry. */
  function EventRecords(samples: seq<Sample>): (r: seq<Record>)
    ensures |r| == |samples|
    ensures forall i | 0 <= i < |r| :: r[i].unit.None?
    ensures forall i | 0 <= i < |r| :: r[i].dateFrom == samples[i].start && r[i].dateTo == samples[i].end
    ensures forall i | 0 <= i < |r| ::
      r[i].value == ReadValue(samples[i]) && r[i].userEntered == UserEntered(samples[i])
      && r[i].typeName == ToDartType(samples[i].sampleType) && r[i].source == samples[i].source
  {
    seq(|samples|, i requires 0 <= i < |samples| => ToRecord(samples[i], None))
  }

  /** Events and read rows differ in the `unit` entry alone. */
  lemma EventsAreRowsWithoutUnit(samples: seq<Sample>, unit: Unit)
    ensures forall i | 0 <= i < |samples| :: EventRecords(samples)[i] == ReadRecords(samples, unit)[i].(unit := None)
  {
  }
}

=== FILE: sorting.dfy ===
/**
 * Samples as HealthKit hands them over, the orders the bridge asks for,
 * and an insertion sort standing for HealthKit's sort descriptors and
 * Swift's `sorted(by:)`.
 */
module Samples {
  import opened Wrappers
  import opened Extensions

  /** The payload of a sample: a quantity, a category value, or neither. */
  datatype SampleKind =
    | QuantitySample(quantity: real)      // already expressed in the requested unit
    | CategorySample(categoryValue: int)
    | OtherSample

  /** A metadata value; Objective-C booleans are numbers, `true` being 1. */
  datatype MetadataValue = MetaNumber(number: int) | MetaText(text: string)

  /** A HealthKit sample; dates are milliseconds since 1970. */
  datatype Sample = Sample(
    kind: SampleKind,
    start: int,
    end: int,
    source: string,
    metadata: Option<map<string, MetadataValue>>,
    sampleType: SampleType)

  /** The orders used by the read path. */
  datatype Order = EndAscending | EndDescending | StartAscending

  /** The sort key of a sample; descending by end is ascending by the negated end. */
  function Key(s: Sample, o: Order): int {
    match o
    case EndAscending => s.end
    case EndDescending => -s.end
    case StartAscending => s.start
  }

  predicate SortedBy(xs: seq<Sample>, o: Order) {
    forall i, j | 0 <= i < j < |xs| :: Key(xs[i], o) <= Key(xs[j], o)
  }

  /** A key below every element of a sorted sequence may be put in front of it. */
  lemma SortedCons(h: Sample, t: seq<Sample>, o: Order)
    requires SortedBy(t, o)
    requires forall k | 0 <= k < |t| :: Key(h, o) <= Key(t[k], o)
    ensures SortedBy([h] + t, o)
  {
    var r := [h] + t;
    forall i, j | 0 <= i < j < |r| ensures Key(r[i], o) <= Key(r[j], o) {
      if i > 0 { assert r[i] == t[i - 1] && r[j] == t[j - 1]; } else { assert r[j] == t[j - 1]; }
    }
  }

  /** A lower bound of `x` and of every element of `tail` bounds every element of a permutation of both. */
  lemma LowerBound(h: Sample, x: Sample, tail: seq<Sample>, rest: seq<Sample>, o: Order)
    requires multiset(rest) == multiset(tail) + multiset{x}
    requires Key(h, o) <= Key(x, o)
    requires forall k | 0 <= k < |tail| :: Key(h, o) <= Key(tail[k], o)
    ensures forall k | 0 <= k < |rest| :: Key(h, o) <= Key(rest[k], o)
  {
    forall k | 0 <= k < |rest| ensures Key(h, o) <= Key(rest[k], o) {
      assert rest[k] in multiset(rest);
      if rest[k] != x {
        assert rest[k] in multiset(tail);
        var m :| 0 <= m < |tail| && tail[m] == rest[k];
      }
    }
  }

  /** Inserts `x` into a sorted sequence, keeping it sorted. */
  function Insert(x: Sample, xs: seq<Sample>, o: Order): (r: seq<Sample>)
    requires SortedBy(xs, o)
    ensures SortedBy(r, o)
    ensures multiset(r) == multiset(xs) + multiset{x}
  {
    if xs == [] || Key(x, o) <= Key(xs[0], o) then
      SortedCons(x, xs, o);
      [x] + xs
    else
      var tail := xs[1..];
      assert xs == [xs[0]] + tail;
      var rest := Insert(x, tail, o);
      LowerBound(xs[0], x, tail, rest, o);
      SortedCons(xs[0], rest, o);
      [xs[0]] + rest
  }

  /** A permutation of `xs` ordered by `o`; ties are left in an order of the sort's choosing. */
  function Sort(xs: seq<Sample>, o: Order): (r: seq<Sample>)
    ensures SortedBy(r, o)
    ensures multiset(r) == multiset(xs)
    ensures |r| == |xs|
  {
    if xs == [] then []
    else
      assert xs == [xs[0]] + xs[1..];
      Insert(xs[0], Sort(xs[1..], o), o)
  }
}

=== FILE: subscribe_request.dfy ===
/**
 * `SubscribeRequest.fromCall`: reads the metric names out of the call
 * arguments, looks each up as a (sample type, unit) pair, and reads the
 * `ignoreManualData` flag.
 */
module SubscribeRequests {
  import opened Wrappers
  import opened Extensions
  import opened Calls

  /** One element of `sampleTypes`: the two lookups of one metric name. */
  datatype TypedUnit = TypedUnit(sampleType: SampleType, unit: Unit)

  datatype SubscribeRequest = SubscribeRequest(
    types: seq<string>,
    sampleTypes: seq<TypedUnit>,
    ignoreManualData: bool)

  /** Both lookups of one name, sample type first: the closure passed to `map`. */
  function LookupPair(name: string, atLeastIOS9: bool): (r: Result<TypedUnit, string>)
    ensures r.Success? <==> SampleTypeFromDartType(name, atLeastIOS9).Success?
    ensures r.Success? ==>
      r.value == TypedUnit(SampleTypeFromDartType(name, atLeastIOS9).value, UnitFromDartType(name).value)
    ensures r.Failure? ==> r.error == NotSupportedMessage(name)
  {
    match SampleTypeFromDartType(name, atLeastIOS9)
    case Failure(e) => Failure(e)
    case Success(t) =>
      match UnitFromDartType(name)
      case Failure(e) => Failure(e)
      case Success(u) => Success(TypedUnit(t, u))
  }

  /** `i` is the index of the first element on which `f` fails. */
  predicate FirstFailure<A, B, E>(xs: seq<A>, f: A -> Result<B, E>, i: int) {
    && 0 <= i < |xs|
    && f(xs[i]).Failure?
    && forall j | 0 <= j < i :: f(xs[j]).Success?
  }

  /** A first failure of the tail is one of the whole list when `f` succeeds on its head. */
  lemma FirstFailureShift<A, B, E>(xs: seq<A>, f: A -> Result<B, E>, i: int)
    requires xs != [] && f(xs[0]).Success?
    requires FirstFailure(xs[1..], f, i)
    ensures FirstFailure(xs, f, i + 1)
  {
    forall j | 1 <= j <= i ensures f(xs[j]).Success? {
      assert xs[j] == xs[1..][j - 1];
    }
  }

  /**
   * `try xs.map(f)` with a throwing `f`: all-or-nothing and order-preserving;
   * the first element on which `f` throws, in list order, decides the error.
   */
  function MapAll<A, B, E>(xs: seq<A>, f: A -> Result<B, E>): (r: Result<seq<B>, E>)
    ensures r.Success? <==> forall i | 0 <= i < |xs| :: f(xs[i]).Success?
    ensures r.Success? ==> |r.value| == |xs|
    ensures r.Success? ==> forall i | 0 <= i < |xs| :: r.value[i] == f(xs[i]).value
    ensures r.Failure? ==> exists i :: FirstFailure(xs, f, i) && r.error == f(xs[i]).error
  {
    if xs == [] then Success([])
    else
      match f(xs[0])
      case Failure(e) =>
        assert FirstFailure(xs, f, 0);
        Failure(e)
      case Success(y) =>
        match MapAll(xs[1..], f)
        case Failure(e) =>
          assert exists i :: FirstFailure(xs, f, i) && e == f(xs[i]).error by {
            var i :| FirstFailure(xs[1..], f, i) && e == f(xs[1..][i]).error;
            FirstFailureShift(xs, f, i);
          }
          Failure(e)
        case Success(rest) =>
          assert forall i | 1 <= i < |xs| :: xs[i] == xs[1..][i - 1];
          Success([y] + rest)
  }

  /** Index of the first name neither lookup can place. */
  predicate FirstUnsupported(names: seq<string>, atLeastIOS9: bool, i: int) {
    && 0 <= i < |names|
    && LookupPair(names[i], atLeastIOS9).Failure?
    && forall j | 0 <= j < i :: LookupPair(names[j], atLeastIOS9).Success?
  }

  /** The lookups of all requested names: `types.map` over `LookupPair`. */
  function LookupAll(names: seq<string>, atLeastIOS9: bool): (r: Result<seq<TypedUnit>, string>)
    ensures r.Success? <==> forall i | 0 <= i < |names| :: LookupPair(names[i], atLeastIOS9).Success?
    ensures r.Success? ==> |r.value| == |names|
    ensures r.Success? ==>
      forall i | 0 <= i < |names| :: r.value[i] == LookupPair(names[i], atLeastIOS9).value
    ensures r.Failure? ==>
      exists i :: FirstUnsupported(names, atLeastIOS9, i) && r.error == NotSupportedMessage(names[i])
  {
    var lookup := (name: string) => LookupPair(name, atLeastIOS9);
    var r := MapAll(names, lookup);
    assert r.Failure? ==> exists i :: FirstUnsupported(names, atLeastIOS9, i) && r.error == NotSupportedMessage(names[i]) by {
      if r.Failure? {
        var i :| FirstFailure(names, lookup, i) && r.error == lookup(names[i]).error;
        assert FirstUnsupported(names, atLeastIOS9, i);
      }
    }
    r
  }

  /** The names in `arguments["types"]`, if the arguments have the required shape. */
  function TypesArgument(args: Arg): (r: Option<seq<string>>)
    ensures r.Some? <==>
      (StringKeyed(args) && StringArg("types") in args.entries
       && args.entries[StringArg("types")].ListArg?
       && forall i | 0 <= i < |args.entries[StringArg("types")].items| :: args.entries[StringArg("types")].items[i].StringArg?)
    ensures r.Some? ==>
      (|r.value| == |args.entries[StringArg("types")].items|
       && forall i | 0 <= i < |r.value| :: r.value[i] == args.entries[StringArg("types")].items[i].text)
  {
    if !StringKeyed(args) then None
    else
      match Field(args, "types")
      case None => None
      case Some(v) => AsStringList(v)
  }

  /** Whether every name in `arguments["types"]` is supported. */
  predicate TypesValid(args: Arg, atLeastIOS9: bool) {
    TypesArgument(args).Some? && LookupAll(TypesArgument(args).value, atLeastIOS9).Success?
  }

  /**
   * What the forced cast `arguments["ignoreManualData"] as! Bool` demands:
   * once the names are valid, the flag must be present and convert to a Bool.
   */
  predicate Admissible(args: Arg, atLeastIOS9: bool) {
    TypesValid(args, atLeastIOS9) ==> Field(args, "ignoreManualData").Some? && AsBool(Field(args, "ignoreManualData").value).Some?
  }

  /** `SubscribeRequest.fromCall`. */
  function FromCall(args: Arg, atLeastIOS9: bool): (r: Result<SubscribeRequest, Thrown>)
    requires Admissible(args, atLeastIOS9)
    ensures r == Failure(InvalidCallArguments(args)) <==> TypesArgument(args).None?
    ensures r.Success? <==> TypesValid(args, atLeastIOS9)
    ensures r.Success? ==> r.value.types == TypesArgument(args).value
    ensures r.Success? ==> |r.value.sampleTypes| == |r.value.types|
    ensures r.Success? ==> forall i | 0 <= i < |r.value.types| ::
      r.value.sampleTypes[i] == TypedUnit(
        SampleTypeFromDartType(r.value.types[i], atLeastIOS9).value, UnitFromDartType(r.value.types[i]).value)
    ensures r.Success? ==> Some(r.value.ignoreManualData) == AsBool(Field(args, "ignoreManualData").value)
    ensures TypesArgument(args).Some? && r.Failure? ==>
      exists i :: FirstUnsupported(TypesArgument(args).value, atLeastIOS9, i)
        && r.error == Message(NotSupportedMessage(TypesArgument(args).value[i]))
  {
    match TypesArgument(args)
    case None => Failure(InvalidCallArguments(args))
    case Some(types) =>
      match LookupAll(types, atLeastIOS9)
      case Failure(e) => Failure(Message(e))
      case Success(pairs) =>
        Success(SubscribeRequest(types, pairs, AsBool(Field(args, "ignoreManualData").value).value))
  }

  /** An empty name list parses, giving no sample types. */
  lemma EmptyTypesParse(args: Arg, atLeastIOS9: bool)
    requires TypesArgument(args) == Some([])
    requires Admissible(args, atLeastIOS9)
    ensures FromCall(args, atLeastIOS9).Success?
    ensures FromCall(args, atLeastIOS9).value.sampleTypes == []
  {
  }

  /**
   * The names are checked before the flag is read: with a malformed or
   * unsupported name list the flag may be missing, and the parse fails.
   */
  lemma NamesCheckedBeforeFlag(args: Arg, atLeastIOS9: bool)
    requires !TypesValid(args, atLeastIOS9)
    ensures Admissible(args, atLeastIOS9)
    ensures FromCall(args, atLeastIOS9).Failure?
  {
  }

  /** A single unsupported name anywhere in the list fails the whole parse. */
  lemma {:induction false} OneBadNameFailsAll(args: Arg, atLeastIOS9: bool, k: int)
    requires TypesArgument(args).Some?
    requires 0 <= k < |TypesArgument(args).value|
    requires SampleTypeFromDartType(TypesArgument(args).value[k], atLeastIOS9).Failure?
    ensures Admissible(args, atLeastIOS9)
    ensures FromCall(args, atLeastIOS9).Failure?
    ensures FromCall(args, atLeastIOS9).error.Message?
  {
    assert LookupPair(TypesArgument(args).value[k], atLeastIOS9).Failure?;
  }

  /** A flag sent as the number 1 or 0 passes the forced cast as `true` or `false`. */
  lemma NumericFlagAccepted(args: Arg, atLeastIOS9: bool, n: int)
    requires TypesValid(args, atLeastIOS9)
    requires n == 0 || n == 1
    requires Field(args, "ignoreManualData") == Some(IntArg(n))
    ensures Admissible(args, atLeastIOS9)
    ensures FromCall(args, atLeastIOS9).Success?
    ensures FromCall(args, atLeastIOS9).value.ignoreManualData <==> n == 1
  {
  }
}

=== FILE: subscriptions.dfy ===
/**
 * The subscription bookkeeping of `subscribeToChanges`: a persisted flag per
 * sample type, checked before an observer is registered and set after.
 */
module Subscriptions {
  import opened Extensions
  import opened SubscribeRequests

  /** The prefix of the persisted flag keys. */
  const FlagPrefix := "fit_kit_subscribe_"

  /** The key of a sample type's flag: the prefix followed by the type's identifier. */
  function FlagKey(t: SampleType): (k: string)
    ensures |k| == |FlagPrefix| + |t.identifier|
    ensures k[..|FlagPrefix|] == FlagPrefix && k[|FlagPrefix|..] == t.identifier
  {
    FlagPrefix + t.identifier
  }

  /** An observer query registered for one sample type, with background delivery enabled. */
  datatype Observer = Observer(sampleType: SampleType, unit: Unit, excludeUserEntered: bool)

  /** The flag set after a call, and the observers the call registered, in order. */
  datatype Registration = Registration(flags: set<string>, observers: seq<Observer>)

  /** The flag keys of the requested sample types. */
  function RequestedKeys(pairs: seq<TypedUnit>): set<string> {
    set i | 0 <= i < |pairs| :: FlagKey(pairs[i].sampleType)
  }

  /** The flag keys of registered observers. */
  function ObserverKeys(observers: seq<Observer>): set<string> {
    set i | 0 <= i < |observers| :: FlagKey(observers[i].sampleType)
  }

  /** No two observers share a flag key. */
  predicate DistinctKeys(observers: seq<Observer>) {
    forall i, j | 0 <= i < j < |observers| :: FlagKey(observers[i].sampleType) != FlagKey(observers[j].sampleType)
  }

  /** Two flag keys agree exactly when the identifiers do. */
  lemma FlagKeyInjective(a: SampleType, b: SampleType)
    ensures FlagKey(a) == FlagKey(b) <==> a.identifier == b.identifier
  {
    if FlagKey(a) == FlagKey(b) {
      assert a.identifier == FlagKey(a)[|FlagPrefix|..];
      assert b.identifier == FlagKey(b)[|FlagPrefix|..];
    }
  }

  /** Observers with distinct keys have distinct identifiers. */
  lemma {:induction false} DistinctKeysDistinctTypes(observers: seq<Observer>, i: int, j: int)
    requires DistinctKeys(observers)
    requires 0 <= i < j < |observers|
    ensures observers[i].sampleType.identifier != observers[j].sampleType.identifier
  {
    FlagKeyInjective(observers[i].sampleType, observers[j].sampleType);
  }

  /** The (sample type, unit) pair an observer was registered for. */
  function Target(o: Observer): TypedUnit {
    TypedUnit(o.sampleType, o.unit)
  }

  lemma RequestedKeysCons(pairs: seq<TypedUnit>)
    requires pairs != []
    ensures RequestedKeys(pairs) == {FlagKey(pairs[0].sampleType)} + RequestedKeys(pairs[1..])
  {
    forall k | k in RequestedKeys(pairs) ensures k in {FlagKey(pairs[0].sampleType)} + RequestedKeys(pairs[1..]) {
      var i :| 0 <= i < |pairs| && k == FlagKey(pairs[i].sampleType);
      if i > 0 { assert pairs[i] == pairs[1..][i - 1]; }
    }
    forall k | k in RequestedKeys(pairs[1..]) ensures k in RequestedKeys(pairs) {
      var i :| 0 <= i < |pairs[1..]| && k == FlagKey(pairs[1..][i].sampleType);
      assert pairs[1..][i] == pairs[i + 1];
    }
  }

  lemma ObserverKeysCons(o: Observer, rest: seq<Observer>)
    ensures ObserverKeys([o] + rest) == {FlagKey(o.sampleType)} + ObserverKeys(rest)
  {
    var all := [o] + rest;
    forall k | k in ObserverKeys(all) ensures k in {FlagKey(o.sampleType)} + ObserverKeys(rest) {
      var i :| 0 <= i < |all| && k == FlagKey(all[i].sampleType);
      if i > 0 { assert all[i] == rest[i - 1]; } else { assert all[0] == o; }
    }
    assert FlagKey(all[0].sampleType) in ObserverKeys(all);
    forall k | k in ObserverKeys(rest) ensures k in ObserverKeys(all) {
      var i :| 0 <= i < |rest| && k == FlagKey(rest[i].sampleType);
      assert all[i + 1] == rest[i];
    }
  }

  lemma DistinctKeysCons(o: Observer, rest: seq<Observer>)
    requires DistinctKeys(rest)
    requires FlagKey(o.sampleType) !in ObserverKeys(rest)
    ensures DistinctKeys([o] + rest)
  {
    var all := [o] + rest;
    forall i, j | 0 <= i < j < |all| ensures FlagKey(all[i].sampleType) != FlagKey(all[j].sampleType) {
      assert all[j] == rest[j - 1];
      if i == 0 {
        assert FlagKey(all[j].sampleType) in ObserverKeys(rest);
      } else {
        assert all[i] == rest[i - 1];
      }
    }
  }

  /** Every observer watches a requested (type, unit) pair, with the request's filter. */
  predicate DrawnFrom(observers: seq<Observer>, pairs: seq<TypedUnit>, excludeUserEntered: bool) {
    forall j | 0 <= j < |observers| ::
      observers[j].excludeUserEntered == excludeUserEntered && Target(observers[j]) in pairs
  }

  lemma DrawnFromCons(o: Observer, rest: seq<Observer>, pairs: seq<TypedUnit>, excludeUserEntered: bool)
    requires pairs != []
    requires o == Observer(pairs[0].sampleType, pairs[0].unit, excludeUserEntered)
    requires DrawnFrom(rest, pairs[1..], excludeUserEntered)
    ensures DrawnFrom(rest, pairs, excludeUserEntered)
    ensures DrawnFrom([o] + rest, pairs, excludeUserEntered)
  {
    assert forall p | p in pairs[1..] :: p in pairs;
    assert forall j | 1 <= j < |rest| + 1 :: ([o] + rest)[j] == rest[j - 1];
  }

  /**
   * The loop of `subscribeToChanges`: for each requested type, in order,
   * register an observer only when its flag is unset, then set the flag.
   */
  function Register(flags: set<string>, pairs: seq<TypedUnit>, excludeUserEntered: bool): (r: Registration)
    ensures r.flags == flags + RequestedKeys(pairs)
    ensures ObserverKeys(r.observers) == RequestedKeys(pairs) - flags
    ensures DistinctKeys(r.observers)
    ensures DrawnFrom(r.observers, pairs, excludeUserEntered)
    decreases |pairs|
  {
    if pairs == [] then Registration(flags, [])
    else
      var key := FlagKey(pairs[0].sampleType);
      var first := Observer(pairs[0].sampleType, pairs[0].unit, excludeUserEntered);
      RequestedKeysCons(pairs);
      if key in flags then
        var rest := Register(flags, pairs[1..], excludeUserEntered);
        DrawnFromCons(first, rest.observers, pairs, excludeUserEntered);
        rest
      else
        var rest := Register(flags + {key}, pairs[1..], excludeUserEntered);
        ObserverKeysCons(first, rest.observers);
        DistinctKeysCons(first, rest.observers);
        DrawnFromCons(first, rest.observers, pairs, excludeUserEntered);
        Registration(rest.flags, [first] + rest.observers)
  }

  /** A type listed twice in one request still gets a single observer. */
  lemma DuplicateRegistersOnce(flags: set<string>, p: TypedUnit, excludeUserEntered: bool)
    requires FlagKey(p.sampleType) !in flags
    ensures |Register(flags, [p, p], excludeUserEntered).observers| == 1
  {
    var key := FlagKey(p.sampleType);
    assert [p, p][1..] == [p] && [p][1..] == [];
    assert Register(flags + {key}, [p], excludeUserEntered).observers == [];
  }

  /** Observers without keys are no observers at all. */
  lemma NoKeysNoObservers(observers: seq<Observer>)
    ensures ObserverKeys(observers) == {} <==> observers == []
  {
    if observers != [] {
      assert FlagKey(observers[0].sampleType) in ObserverKeys(observers);
    }
  }

  /** Requesting only types whose flags are set registers nothing and leaves the flags alone. */
  lemma {:induction false} FlaggedRegistersNothing(flags: set<string>, pairs: seq<TypedUnit>, excludeUserEntered: bool)
    requires RequestedKeys(pairs) <= flags
    ensures Register(flags, pairs, excludeUserEntered) == Registration(flags, [])
  {
    NoKeysNoObservers(Register(flags, pairs, excludeUserEntered).observers);
  }
}

=== FILE: wrappers.dfy ===
/** Optional values and fallible results, used for every lookup and parse that can fail. */
module Wrappers {

  /** A value that may be absent (Swift's `Optional`). */
  datatype Option<+T> = None | Some(value: T) {

    /** The held value, or `default` when there is none (Swift's `??`). */
    function GetOr(default: T): T {
      match this
      case Some(v) => v
      case None => default
    }
  }

  /** The outcome of a Swift function that `throws`: a value, or the thrown error. */
  datatype Result<+R, +E> = Success(value: R) | Failure(error: E)
}
